=== FILE: README.md ===
# Document scanner core, modelled in Dafny

This project models the logic inside the React Native document scanner:

- **Steadiness window (auto-capture gate).** Both scanners keep a short FIFO of
  recently detected document boundaries. They take a photo once three stored
  boundaries agree pairwise, meaning each intersection-over-union (IoU) is
  above 0.9. The live scanner component (`components/Scanner.tsx`) appends the
  new boundary and then tests. The scanner screen (`screens/Scanner.tsx`)
  tests the stored three and then slides. Both are pure step functions over
  `seq<Quad>` that return the new window and whether to capture.
- **Capture protocol.** A `taken` flag is set before the photo is requested.
  Frames whose detection starts while it holds are dropped. The component
  clears it again only when the camera call resolves without a photo. The
  screen also has `retake`, `okay`, and the frame size it records after a
  capture.
- **Cropper coordinate mapping** (`components/Cropper.tsx`). This covers:
  - the contain fit of the photo into the window;
  - the letterboxed map from photo pixels to window positions, and its
    rounded, clamped inverse;
  - the frame-to-photo rescale used when the live detection is reused;
  - the swap of photo width and height when the photo's orientation
    disagrees with the frame's.
- **Handle editing.** This covers the tap hit-test that selects a corner
  handle, and the pan update that moves the selected corner.
- **Overlay text.** The first boundary is written as SVG polygon points.

Modules:
- `Geometry` holds points, quads, whole pixels, dimensions, the device window size and exact `Math.ceil`/`abs`/`min`/`max`.
- `CropperMapping` and `CropperHandles` model `Cropper.tsx`.
- `Steadiness` holds the `steady` test, which is identical in both scanners.
- `Overlay` models the points text.
- `ScannerComponent` models `components/Scanner.tsx`.
- `ScannerScreen` models `screens/Scanner.tsx`.
- `ScannerVariants` relates the two scanners.

Parameters stand for everything external:
- The IoU of two boundaries is a function-valued parameter
  `iou: (Quad, Quad) -> real`. Nothing is assumed about it: not symmetry,
  and not that a boundary has IoU 1 with itself.
- Number-to-text conversion is a parameter `show: real -> string`.
- Detector results, the camera's photo (or its absence), and whether the
  camera reference is set are all inputs.

All arithmetic is exact (`real`). `Math.ceil` is `Ceil(r) = -((-r).Floor)`.

## Model

| member | source | states |
|---|---|---|
| `Geometry.SwapTwiceIsIdentity` | src/components/Cropper.tsx:77-81 | swapping a photo's width and height twice gives back the original size |
| `Geometry.Ceil` | src/components/Cropper.tsx:164-165 | `Math.ceil` gives the integer c with r <= c < r + 1 |
| `CropperMapping.DisplayedSize` | src/components/Cropper.tsx:175-184 | the contain-fit size is positive, fits in the window, equals the window on at least one side, and has the photo's aspect ratio |
| `CropperMapping.ContainFitIsUnique` | src/components/Cropper.tsx:175-184 | any size that fits, touches one side and keeps the aspect ratio is exactly the computed one |
| `CropperMapping.DisplayedSizeExamples` | src/components/Cropper.tsx:175-184 | a 720x1280 photo fills a 1080x1920 window; a 1280x720 photo is shown 1080 x 607.5 |
| `CropperMapping.LayoutOf` | src/components/Cropper.tsx:157-161 | both axes get the same positive scale; the offsets are non-negative, at least one is zero, and they centre the image in the window |
| `CropperMapping.DisplayMapsAreInverse` | src/components/Cropper.tsx:146-147 | the photo-to-window map and its exact inverse undo each other in both directions |
| `CropperMapping.ScaledPoints` | src/components/Cropper.tsx:127-151 | keeps the number and order of points; the exact inverse recovers each point; a point is inside the photo iff its image is inside the displayed photo |
| `CropperMapping.BackCoord` | src/components/Cropper.tsx:164-169 | result <= dim-1; result >= 1 when dim >= 2; for u in (0, dim-1] it is the ceiling of u; u <= 0 gives 1 when dim >= 2; u > dim-1 gives dim-1; a photo under two pixels across always gives dim-1 |
| `CropperMapping.PointsScaledBack` | src/components/Cropper.tsx:153-173 | one whole-pixel output per input, in order; each coordinate is at most dim-1, and at least 1 when dim >= 2 |
| `CropperMapping.ScaleRoundTrip` | src/components/Cropper.tsx:140-169 | mapping to the window and back equals ceiling-then-clamp of each original coordinate |
| `CropperMapping.ScaleRoundTripIdentity` | src/components/Cropper.tsx:140-169 | whole pixels with 1 <= x <= width-1 and 1 <= y <= height-1 come back unchanged |
| `CropperMapping.LiveCoord` | src/components/Cropper.tsx:94-97 | with s the coordinate scaled by photo/frame: result <= photo dim; it is the ceiling of s when s <= dim, and equals dim above that |
| `CropperMapping.RescaleLive` | src/components/Cropper.tsx:89-98 | rescales each point of the live boundary with `LiveCoord`, in order; no coordinate exceeds the photo size; the input value is not altered |
| `CropperMapping.RescaleLiveStaysInPhoto` | src/components/Cropper.tsx:92-98 | a point inside the frame is rescaled into the photo |
| `CropperMapping.RescaleLiveHasNoLowerClamp` | src/components/Cropper.tsx:94-97 | a negative coordinate stays negative: (-10, 5) in a 1920x1080 frame becomes (-20, 10) in a 3840x2160 photo |
| `CropperMapping.FixOrientation` | src/components/Cropper.tsx:64-81 | width and height are swapped iff frame and photo orientation are inconsistent, and afterwards they are consistent |
| `CropperMapping.FixOrientationIdempotent` | src/components/Cropper.tsx:64-81 | fixing the orientation twice is the same as fixing it once: after the in-place swap, the photo object would not be swapped again |
| `CropperMapping.InconsistentOrientation` | src/components/Cropper.tsx:64-69 | frame landscape and photo portrait, or frame portrait and photo landscape |
| `CropperMapping.UseLiveDetection` | src/components/Cropper.tsx:84-86 | the live boundary is reused iff frame width and height are non-zero, a live boundary exists, and frame and photo have equal aspect ratios |
| `CropperMapping.DetectFile` | src/components/Cropper.tsx:83-113 | live path iff frame dims are non-zero, a live boundary exists and the aspect ratios match; otherwise the first file detection is used, else the handles stay; a live boundary inside the frame lands inside the displayed photo |
| `CropperMapping.InitialHandles` | src/components/Cropper.tsx:61-75 | the mount effect fixes orientation and then detects; with no live path and no file result the default handles remain |
| `CropperHandles.HandleAnchor` | src/components/Cropper.tsx:35-59 | the corner is the bottom-right vertex of its 10x10 square for corner 0, bottom-left for 1, top-left for 2 and top-right for 3; so the corner lies in its square |
| `CropperHandles.HitsHandle` | src/components/Cropper.tsx:206-208 | a tap hits handle i iff it is less than 35 from the handle's anchor on both axes |
| `CropperMapping.Confirm` | src/components/Cropper.tsx:122-126 | `okay` returns one pixel per handle, bounded by the photo size after the mount swap: by the swapped size when frame and photo orientation disagree |
| `CropperMapping.ConfirmReturnsFileBoundary` | src/components/Cropper.tsx:61-172 | mounting and confirming without moving a handle hands back a file boundary of whole pixels inside the fixed photo exactly |
| `CropperHandles.TapOnCornerHitsItsHandle` | src/components/Cropper.tsx:202-208 | a tap exactly on a corner hits that corner's handle |
| `CropperHandles.SelectHandle` | src/components/Cropper.tsx:200-215 | the selection becomes the first index whose anchor is within 35 on both axes; if none is, the selection is unchanged |
| `CropperHandles.Pan` | src/components/Cropper.tsx:186-198 | same length; other corners untouched; points change iff a handle is selected, both deltas are below 5 and one is non-zero; then the selected corner moves by exactly the delta |
| `CropperHandles.PanThenReverseRestores` | src/components/Cropper.tsx:187-198 | a pan followed by the opposite pan restores the points |
| `Steadiness.Steady` | src/components/Scanner.tsx:166-181 | steady iff entries 0, 1 and 2 exist and IoU(0,1), IoU(1,2) and IoU(0,2) are each above 0.9 |
| `Steadiness.SteadyIffLeadingTrioAgrees` | src/components/Scanner.tsx:166-181 | steady iff there are at least 3 entries and every ordered pair among the first three has IoU > 0.9 |
| `Steadiness.SteadyIgnoresLaterEntries` | src/screens/Scanner.tsx:152-167 | only the first three entries matter to `steady` |
| `Steadiness.DriftIsNotSteady` | src/components/Scanner.tsx:168-176 | neighbouring pairs agreeing is not enough: the oldest-newest pair must agree too |
| `ScannerComponent.CheckIfSteady` | src/components/Scanner.tsx:142-164 | no result: no change. Fewer than 2 stored: append. Otherwise append and capture iff steady; the window is kept whole on capture, else becomes old[1..] + [result]. From length <= 2, a non-capturing step stays <= 2; a capture leaves 3 mutually agreeing entries |
| `ScannerComponent.OnFrame` | src/components/Scanner.tsx:183-199 | frames are ignored while `taken` holds or when nothing is detected; `taken` becomes set only by a capture of a steady window with the camera ready |
| `ScannerComponent.OnPhoto` | src/components/Scanner.tsx:117-138 | `taken` stays set iff a photo came back; the photo is handed on and the camera stopped; the window is not cleared |
| `ScannerComponent.OnFrameKeepsInvariant` | src/components/Scanner.tsx:142-164 | with the camera ready or not, a frame keeps the window either at most 2 long or with its oldest three agreeing, and `taken` only with the latter; once the oldest three agree, a detection is appended and `taken` is set iff the camera is ready |
| `ScannerComponent.OnPhotoKeepsInvariant` | src/components/Scanner.tsx:134-138 | the outcome of a capture, photo or none, keeps that invariant |
| `ScannerComponent.RunKeepsInvariant` | src/components/Scanner.tsx:113-205 | over any sequence of frames (camera ready or not) and photo outcomes, the invariant holds |
| `ScannerComponent.FailedCapturesGrowWindow` | src/components/Scanner.tsx:134-158 | after n rounds of a failed capture followed by a detection, a capture is in flight and the window is the old window followed by the n new boundaries |
| `ScannerComponent.FramesIgnoredWhileTaken` | src/components/Scanner.tsx:187-188 | in the model, where a frame's `taken` test and the delivery of its results are one step, no sequence of frames changes the state while a capture is in flight |
| `ScannerComponent.FailedCaptureRecapturesOnNextDetection` | src/components/Scanner.tsx:134-153 | after a failed capture, the next detection that reaches the test appends its boundary and triggers another capture |
| `Overlay.PointsText` | src/components/Scanner.tsx:96-99 | the overlay text: corners 0 to 3 as "x,y", with a space after each of the first three |
| `Overlay.PointsTextIsJoin` | src/components/Scanner.tsx:96-99 | the overlay text is the four "x,y" corner texts, in index order, joined by single spaces |
| `Overlay.PointsTextSplitsIntoCorners` | src/components/Scanner.tsx:96-99 | if numbers print without spaces, splitting the text at spaces gives back exactly the four corner texts: no leading or trailing space |
| `Overlay.UpdatePointsData` | src/components/Scanner.tsx:91-103 | with results, the text is the first boundary's joined corner texts; without results, the previous text is kept |
| `ScannerScreen.Current` | src/screens/Scanner.tsx:132-135 | the current boundary exists iff there are results, and it is the first result |
| `ScannerScreen.CheckIfSteady` | src/screens/Scanner.tsx:131-150 | no result: no change. Fewer than 3 stored: append. Otherwise capture iff the stored window is steady, with the window kept; if not, shift then push, keeping the length. A window of length <= 3 stays <= 3 |
| `ScannerScreen.CaptureIgnoresCurrentBoundary` | src/screens/Scanner.tsx:136-144 | the capture decision does not depend on the current boundary |
| `ScannerScreen.RunDetectionsKeepsWindowBounded` | src/screens/Scanner.tsx:136-148 | over any run of detections the window stays at most 3 long, and a capture only follows a steady window |
| `ScannerScreen.ViewBox` | src/screens/Scanner.tsx:28-50 | the view box is the frame size or its swap; it is swapped only on Android; on Android a non-square view box has the screen's orientation |
| `ScannerScreen.CapturedFrameDims` | src/screens/Scanner.tsx:113-124 | the recorded size is the photo's size, swapped exactly on Android with orientation tag 6 |
| `ScannerScreen.OnFrame` | src/screens/Scanner.tsx:71-81 | while `taken` holds a frame changes nothing; otherwise its results and size replace the old ones |
| `ScannerScreen.BeginCapture` | src/screens/Scanner.tsx:105-108 | `taken` is set before capture whenever the camera is ready; nothing else changes |
| `ScannerScreen.FinishCapture` | src/screens/Scanner.tsx:110-128 | after capture the camera is inactive, `taken` holds, the file results and photo path are stored, and the window is kept |
| `ScannerScreen.FileResultsRetriggerCapture` | src/screens/Scanner.tsx:99-150 | after a capture triggered by a steady window, storing non-empty file results leaves `taken` set and the window unchanged, and the next `checkIfSteady` requests a capture again |
| `ScannerScreen.OkayAfterCapture` | src/screens/Scanner.tsx:110-190 | after a capture, `okay` opens the result viewer with the captured photo's path and the first boundary found in the photo file, and shows the error when the file yielded none; after a retake it always shows the error |
| `ScannerScreen.Retake` | src/screens/Scanner.tsx:169-175 | the window, results and photo path are emptied, `taken` is cleared and the camera restarted |
| `ScannerScreen.RetakeStartsOver` | src/screens/Scanner.tsx:169-175 | after a retake the next boundary is simply stored with no capture; retaking twice equals retaking once |
| `ScannerScreen.Okay` | src/screens/Scanner.tsx:177-190 | an error is shown iff there are no results, and there is no navigation then; otherwise it navigates with the photo path and the first result |
| `ScannerVariants.ScreenLagsComponentByOneFrame` | src/screens/Scanner.tsx:136-148 | fed the same boundaries, the screen makes the component's capture decision one frame later, and the correspondence between their windows carries over |

## Behaviour of the code worth knowing

- **Window after capture.** Neither scanner clears the window after a
  capture. In the component, a capture whose camera call returns no photo
  clears `taken`. The next detection whose overlay text differs from the
  last one then captures again: the stored three that agreed are still at
  the front of the window, and they are all that `steady` looks at.
- **Stuck after a rejected capture.** In the component, if the camera call
  (or the `sleep` or the Android `rotateFile` before the photo is handed on)
  rejects instead of resolving, the code that clears `taken` never runs.
  `taken` stays set for good, every later frame is dropped, and the
  component has no `retake`. In the model this is a run with no photo
  outcome, and `ScannerComponent.FramesIgnoredWhileTaken` shows that nothing
  changes after that.
- **Unbounded window in the component.** Once three agreeing boundaries are
  stored, the component's test no longer drops the oldest entry. Every
  further detection that reaches the test is appended. This happens after
  each failed capture, and on every detection while the camera reference is
  not set. So `previousResults` gains one entry per failed capture and is
  never trimmed again.
- **Second capture in the screen.** The screen's `checkIfSteady` does not
  look at `taken`, and a capture keeps the window. `takePhoto` stores the
  results of detection on the photo file. Whenever the photo file yields at
  least one boundary and its text differs from the last live text, the
  overlay text changes and `checkIfSteady` runs again. The stored three still
  agree, so `takePhoto` is called a second time. When the photo file yields
  no boundary, the text becomes empty and `checkIfSteady` runs without a
  current boundary, so nothing is captured.
- **Photo size changed in place.** The cropper swaps the width and height of
  the photo object it was given when the photo's orientation disagrees with
  the frame's. Everything after that reads the swapped size: detection on
  mount, and the conversion back to photo pixels when `okay` is pressed.
- **Rescale clamping.** The live frame-to-photo rescale caps coordinates at
  the photo size. It has no lower clamp, so negative coordinates stay
  negative.
- **No rounding on the way in.** The map from photo to window does not round.
  Only the map back rounds up (`Math.ceil`) and clamps to `[1, dim - 1]`.
- **Screen lag.** The screen tests the stored window before adding the
  current boundary. So it reaches each capture decision one frame after the
  component would.

## Left out

- The IoU computation: `../Utils` is not part of this model. IoU is an
  unconstrained parameter.
- The detector (`detect`, `detectFile`), `rotateFile`, `initLicense` and the
  runtime-settings template. These are foreign calls, and their results are
  inputs.
- The camera's `takePhoto` and the one-second `sleep` before it. These are
  device I/O. The photo, or its absence, is an input.
- React hooks, effect ordering, shared values, worklets and
  `runAtTargetFps`. These are scheduling plumbing.
- ScannerComponent.OnFrame: runs `checkIfSteady` after every frame with a
  detection. The source runs it from an effect on the overlay text. Setting
  state to an equal string does not re-run that effect, so a detection whose
  text equals the previous one never reaches the window.
- ScannerScreen.RunDetections: each entry is one run of `checkIfSteady`. In
  the source it runs from an effect on the overlay text, so a frame whose
  text equals the previous one never reaches the window. The model does not
  produce that text; the caller supplies only the frames whose text changed.
- CropperMapping.Confirm: the model passes the fixed size on to detection
  and to `Confirm`. The source does this by changing the caller's photo
  object, and that change is visible to the caller afterwards. The caller's
  state is not modelled. `PointsScaledBack` must be given the fixed size, as
  `Confirm` does.
- `getFrameSize` and `updateViewBox` in the component. Their comparison
  reads the shared-value objects, not their numbers, so the numeric behaviour
  is not what it appears to be.
- The screen's derived `pointsData`. It is the same serializer as
  `Overlay.PointsText`, falling back to the empty text.
- Rendering: Svg and Skia markup, styles, `rects()`, and the `detecting`
  spinner flag.
- The `onConfirmed`/`onCanceled` callbacks of the cropper, beyond
  `PointsScaledBack`, which computes what `okay` passes on.
- `src/App.tsx` navigation. It declares a five-argument `onScanned`, but the
  component calls it with two, so end-to-end wiring is not modelled.
- The white-background template switch.
- Android bitmap rotation in the component's `takePhoto`. It is a foreign
  call with no effect on the modelled state.
- A camera failure in the screen's `takePhoto`. That is a rejected promise,
  and the code does not handle it. The component does not handle it either;
  see "Stuck after a rejected capture" above.
- ScannerComponent.FramesIgnoredWhileTaken: treats a frame's `taken` test
  and the delivery of its results as one step. In the source the test runs
  in the frame-processor worklet, and the results reach the JavaScript side
  later through `convertAndSetResultsJS`. Neither `checkIfSteady` nor
  `takePhoto` reads `taken`. So a frame that passed the test just before
  `taken` was set can be delivered during the one-second `sleep`. The
  oldest three stored boundaries still agree, so `takePhoto` is then called
  a second time. The model does not rule this out for the source.
- IEEE floating point, including the exact `==` aspect test in `detectFile`.
  Arithmetic here is exact.
- CropperMapping.DisplayedSize: requires a photo and window of positive size.
  JavaScript would divide by zero and produce Infinity or NaN. The same
  requirement carries over to `LayoutOf`, `ScaledPoints`, `PointsScaledBack`,
  `RescaleLive`, `DetectFile`, `InitialHandles`, `Confirm` and
  `ConfirmReturnsFileBoundary`.
- Relabelling corners into top-left, top-right, bottom-right, bottom-left
  order does not appear in this code.

=== FILE: cropper_handles.dfy ===
/**
  Editing the four corner handles of the cropper (components/Cropper.tsx):
  a tap selects the handle it lands on, and a pan moves the selected corner
  by small steps.
 */
module CropperHandles {
  import opened Geometry

  /** Side of the square drawn for each handle. */
  const HandleSize: real := 10.0

  /** A tap selects a handle when it is closer than this on both axes to the
      handle's anchor. */
  const TapTolerance: real := 35.0

  /** Pan steps at least this long on either axis are discarded. */
  const MaxPanStep: real := 5.0

  /** No handle is selected. */
  const NoSelection: int := -1

  /** The top-left corner of the square drawn for handle `i`. Each square is
      pushed outward from its corner: up-left for corner 0, up for corner 1,
      not at all for corner 2, left for corner 3. So the corner is the
      square's bottom-right vertex for 0, bottom-left for 1, top-left for 2
      and top-right for 3. */
  function HandleAnchor(pts: Quad, i: int): (a: Point)
    requires IsQuad(pts) && 0 <= i < 4
    ensures pts[i] == Point(a.x + (if i == 0 || i == 3 then HandleSize else 0.0),
                            a.y + (if i <= 1 then HandleSize else 0.0))
    ensures a.x <= pts[i].x <= a.x + HandleSize
    ensures a.y <= pts[i].y <= a.y + HandleSize
  {
    if i == 0 then Point(pts[0].x - HandleSize, pts[0].y - HandleSize)
    else if i == 1 then Point(pts[1].x, pts[1].y - HandleSize)
    else if i == 2 then pts[2]
    else Point(pts[3].x - HandleSize, pts[3].y)
  }

  /** The tap lands on handle `i`. */
  predicate HitsHandle(pts: Quad, i: int, tap: Point)
    requires IsQuad(pts) && 0 <= i < 4
  {
    var a := HandleAnchor(pts, i);
    Abs(tap.x - a.x) < TapTolerance && Abs(tap.y - a.y) < TapTolerance
  }

  /** A tap exactly on a corner always lands on that corner's handle. */
  lemma TapOnCornerHitsItsHandle(pts: Quad, i: int)
    requires IsQuad(pts) && 0 <= i < 4
    ensures HitsHandle(pts, i, pts[i])
  {
  }

  /** The tap handler `selectRect`: the first handle, in index order, that the
      tap lands on becomes selected; a tap that lands on none keeps the
      current selection. */
  method SelectHandle(pts: Quad, tap: Point, selected: int) returns (r: int)
    requires IsQuad(pts)
    ensures || (0 <= r < 4 && HitsHandle(pts, r, tap)
                && forall j :: 0 <= j < r ==> !HitsHandle(pts, j, tap))
            || (r == selected && forall j :: 0 <= j < 4 ==> !HitsHandle(pts, j, tap))
  {
    r := selected;
    var index := 0;
    while index < 4
      invariant 0 <= index <= 4
      invariant forall j :: 0 <= j < index ==> !HitsHandle(pts, j, tap)
    {
      var a := HandleAnchor(pts, index);
      var diffX := Abs(tap.x - a.x);
      var diffY := Abs(tap.y - a.y);
      if diffX < TapTolerance && diffY < TapTolerance {
        r := index;
        return;
      }
      index := index + 1;
    }
  }

  /** The pan handler: move the selected corner by `(changeX, changeY)` when
      both components are shorter than `MaxPanStep`; with no selection, or
      with a longer step, the points stay as they are. Other corners never
      move. */
  function Pan(pts: seq<Point>, selected: int, changeX: real, changeY: real): (r: seq<Point>)
    requires NoSelection <= selected < |pts|
    ensures |r| == |pts|
    ensures forall j :: 0 <= j < |pts| && j != selected ==> r[j] == pts[j]
    ensures r != pts <==>
              && selected != NoSelection
              && Abs(changeX) < MaxPanStep && Abs(changeY) < MaxPanStep
              && (changeX != 0.0 || changeY != 0.0)
    ensures selected != NoSelection && Abs(changeX) < MaxPanStep && Abs(changeY) < MaxPanStep ==>
              r[selected].x - pts[selected].x == changeX && r[selected].y - pts[selected].y == changeY
  {
    if selected == NoSelection then
      pts
    else if Abs(changeX) < MaxPanStep && Abs(changeY) < MaxPanStep then
      var p := pts[selected];
      var r := pts[selected := Point(p.x + changeX, p.y + changeY)];
      assert (changeX != 0.0 || changeY != 0.0) ==> r[selected] != pts[selected];
      r
    else
      pts
  }

  /** A small step followed by the opposite step restores the points. */
  lemma PanThenReverseRestores(pts: seq<Point>, selected: int, changeX: real, changeY: real)
    requires NoSelection <= selected < |pts|
    ensures Pan(Pan(pts, selected, changeX, changeY), selected, -changeX, -changeY) == pts
  {
  }
}

=== FILE: cropper_mapping.dfy ===
/**
  Coordinate mapping of the cropper screen (components/Cropper.tsx).

  A captured photo is drawn into the device window with "contain" fit: scaled
  uniformly until one side meets the window and centred on the other axis
  (letterboxing). Detected corner points are mapped from photo pixels into
  that displayed image, and the handles the user drags are mapped back into
  photo pixels, rounded up and kept one pixel inside the photo border. When the
  live camera detection can be reused, its frame-space points are first
  rescaled into photo pixels.

  All arithmetic is exact; the source's floating point is not modelled.
 */
module CropperMapping {
  import opened Geometry

  /** Size of the photo as drawn inside the window. */
  datatype DisplaySize = DisplaySize(width: real, height: real)

  predicate ValidPhoto(photo: Dims) {
    photo.width > 0 && photo.height > 0
  }

  predicate ValidViewport(view: Viewport) {
    view.width > 0.0 && view.height > 0.0
  }

  // ---------------------------------------------------------------------------
  // Contain fit
  // ---------------------------------------------------------------------------

  /** The size of the photo drawn with "contain" fit: it fits in the window,
      touches it on at least one side, and keeps the photo's aspect ratio. */
  function DisplayedSize(photo: Dims, view: Viewport): (d: DisplaySize)
    requires ValidPhoto(photo) && ValidViewport(view)
    ensures 0.0 < d.width <= view.width && 0.0 < d.height <= view.height
    ensures d.width == view.width || d.height == view.height
    ensures d.height * (photo.width as real) == d.width * (photo.height as real)
  {
    var pw := photo.width as real;
    var ph := photo.height as real;
    if ph / pw > view.height / view.width then
      var d := DisplaySize(pw * (view.height / ph), view.height);
      assert ph * view.width > view.height * pw by {
        DivLessCrossMul(view.height, view.width, ph, pw);
      }
      assert d.width * ph == pw * view.height;
      MulLessCancel(d.width, view.width, ph);
      d
    else
      var d := DisplaySize(view.width, ph * (view.width / pw));
      assert ph * view.width <= view.height * pw by {
        if ph * view.width > view.height * pw {
          DivLessCrossMul(view.height, view.width, ph, pw);
        }
      }
      assert d.height * pw == ph * view.width;
      MulAtMostCancel(d.height, view.height, pw);
      d
  }

  /** `a / b < c / d` for positive denominators is `a * d < c * b`. */
  lemma DivLessCrossMul(a: real, b: real, c: real, d: real)
    requires b > 0.0 && d > 0.0
    ensures a / b < c / d <==> a * d < c * b
  {
    assert a / b * (b * d) == a * d;
    assert c / d * (b * d) == c * b;
  }

  lemma MulLessCancel(x: real, y: real, k: real)
    requires k > 0.0 && x * k < y * k
    ensures x < y
  {
  }

  lemma MulAtMostCancel(x: real, y: real, k: real)
    requires k > 0.0 && x * k <= y * k
    ensures x <= y
  {
  }

  /** The contain fit is the only size that fits, touches the window on one
      side and keeps the photo's aspect ratio. */
  lemma ContainFitIsUnique(photo: Dims, view: Viewport, d: DisplaySize)
    requires ValidPhoto(photo) && ValidViewport(view)
    requires 0.0 < d.width <= view.width && 0.0 < d.height <= view.height
    requires d.width == view.width || d.height == view.height
    requires d.height * (photo.width as real) == d.width * (photo.height as real)
    ensures d == DisplayedSize(photo, view)
  {
  }

  // ---------------------------------------------------------------------------
  // Photo space <-> display space
  // ---------------------------------------------------------------------------

  /** Letterbox offsets and per-axis scale from photo pixels to the window. */
  datatype Layout = Layout(offsetX: real, offsetY: real, xRatio: real, yRatio: real)

  /** The layout both `scaledPoints` and `pointsScaledBack` derive from the
      displayed size: the image is centred, and the two axes are scaled alike. */
  function LayoutOf(photo: Dims, view: Viewport): (l: Layout)
    requires ValidPhoto(photo) && ValidViewport(view)
    ensures l.xRatio > 0.0 && l.xRatio == l.yRatio
    ensures l.offsetX >= 0.0 && l.offsetY >= 0.0
    ensures l.offsetX == 0.0 || l.offsetY == 0.0
    ensures 2.0 * l.offsetX + (photo.width as real) * l.xRatio == view.width
    ensures 2.0 * l.offsetY + (photo.height as real) * l.yRatio == view.height
  {
    var d := DisplayedSize(photo, view);
    var pw := photo.width as real;
    var ph := photo.height as real;
    var l := Layout((view.width - d.width) / 2.0, (view.height - d.height) / 2.0,
                    d.width / pw, d.height / ph);
    assert l.xRatio * pw == d.width;
    assert l.yRatio * ph == d.height;
    assert l.xRatio == l.yRatio by {
      assert d.width / pw * (pw * ph) == d.width * ph;
      assert d.height / ph * (pw * ph) == d.height * pw;
    }
    l
  }

  /** Photo pixel to window position. */
  function ToDisplay(p: Point, l: Layout): Point {
    Point(p.x * l.xRatio + l.offsetX, p.y * l.yRatio + l.offsetY)
  }

  /** Window position to (unrounded) photo pixel. */
  function FromDisplay(q: Point, l: Layout): Point
    requires l.xRatio != 0.0 && l.yRatio != 0.0
  {
    Point((q.x - l.offsetX) / l.xRatio, (q.y - l.offsetY) / l.yRatio)
  }

  /** The two maps are inverse bijections. */
  lemma DisplayMapsAreInverse(p: Point, q: Point, l: Layout)
    requires l.xRatio != 0.0 && l.yRatio != 0.0
    ensures FromDisplay(ToDisplay(p, l), l) == p
    ensures ToDisplay(FromDisplay(q, l), l) == q
  {
  }

  /** The photo rectangle, borders included. */
  predicate InPhoto(p: Point, photo: Dims) {
    0.0 <= p.x <= photo.width as real && 0.0 <= p.y <= photo.height as real
  }

  /** The rectangle the photo occupies in the window under layout `l`,
      borders included. */
  predicate InDisplayedImage(q: Point, l: Layout, view: Viewport) {
    && l.offsetX <= q.x <= view.width - l.offsetX
    && l.offsetY <= q.y <= view.height - l.offsetY
  }

  lemma ScaleInRange(c: real, dim: real, r: real, off: real)
    requires r > 0.0
    ensures 0.0 <= c <= dim <==> off <= c * r + off <= dim * r + off
  {
    if c < 0.0 {
      assert c * r < 0.0;
    }
    if c > dim {
      assert (c - dim) * r > 0.0;
    }
    if c * r < 0.0 {
      assert c < 0.0;
    }
    if c * r > dim * r {
      assert (c - dim) * r > 0.0;
    }
  }

  /** Under a centred layout with positive scale, a point lies in the photo
      exactly when its image lies in the displayed photo. */
  lemma ToDisplayInImage(p: Point, l: Layout, photo: Dims, view: Viewport)
    requires l.xRatio > 0.0 && l.yRatio > 0.0
    requires 2.0 * l.offsetX + (photo.width as real) * l.xRatio == view.width
    requires 2.0 * l.offsetY + (photo.height as real) * l.yRatio == view.height
    ensures InPhoto(p, photo) <==> InDisplayedImage(ToDisplay(p, l), l, view)
  {
    ScaleInRange(p.x, photo.width as real, l.xRatio, l.offsetX);
    ScaleInRange(p.y, photo.height as real, l.yRatio, l.offsetY);
  }

  /** `scaledPoints`: photo pixels to window positions, point by point. No
      rounding is applied. A point lies inside the photo exactly when its image
      lies inside the displayed photo, and mapping back recovers it exactly. */
  function ScaledPoints(pts: seq<Point>, photo: Dims, view: Viewport): (r: seq<Point>)
    requires ValidPhoto(photo) && ValidViewport(view)
    ensures |r| == |pts|
    ensures forall i :: 0 <= i < |pts| ==> FromDisplay(r[i], LayoutOf(photo, view)) == pts[i]
    ensures forall i :: 0 <= i < |pts| ==>
              (InPhoto(pts[i], photo) <==> InDisplayedImage(r[i], LayoutOf(photo, view), view))
  {
    var l := LayoutOf(photo, view);
    var r := seq(|pts|, i requires 0 <= i < |pts| => ToDisplay(pts[i], l));
    forall i | 0 <= i < |pts|
      ensures FromDisplay(r[i], l) == pts[i]
      ensures InPhoto(pts[i], photo) <==> InDisplayedImage(r[i], l, view)
    {
      DisplayMapsAreInverse(pts[i], r[i], l);
      ToDisplayInImage(pts[i], l, photo, view);
    }
    r
  }

  /** One coordinate of `pointsScaledBack`: round the unscaled value `u` up,
      then keep it within `[1, dim - 1]` (lower bound first, so a photo
      narrower than two pixels yields `dim - 1`). */
  function BackCoord(u: real, dim: nat): (c: int)
    ensures c <= dim - 1
    ensures dim >= 2 ==> c >= 1
    ensures 0.0 < u <= (dim - 1) as real ==> u <= c as real < u + 1.0
    ensures u <= 0.0 && dim >= 2 ==> c == 1
    ensures dim < 2 ==> c == dim - 1
    ensures u > (dim - 1) as real ==> c == dim - 1
  {
    var c := Ceil(u);
    assert 0.0 < u <= (dim - 1) as real ==> c <= dim - 1 by {
      if 0.0 < u <= (dim - 1) as real {
        CeilIsLeast(u, dim - 1);
      }
    }
    MinInt(MaxInt(1, c), dim - 1)
  }

  /** `pointsScaledBack`: window positions back to whole photo pixels, in
      order, each one pixel inside the photo border (when the photo is at
      least two pixels across). */
  function PointsScaledBack(pts: seq<Point>, photo: Dims, view: Viewport): (r: seq<Pixel>)
    requires ValidPhoto(photo) && ValidViewport(view)
    ensures |r| == |pts|
    ensures forall i :: 0 <= i < |pts| ==>
              r[i].x <= photo.width - 1 && r[i].y <= photo.height - 1
    ensures forall i :: 0 <= i < |pts| ==>
              (photo.width >= 2 ==> r[i].x >= 1) && (photo.height >= 2 ==> r[i].y >= 1)
  {
    var l := LayoutOf(photo, view);
    seq(|pts|, i requires 0 <= i < |pts| =>
      var u := FromDisplay(pts[i], l);
      Pixel(BackCoord(u.x, photo.width), BackCoord(u.y, photo.height)))
  }

  /** Mapping photo points to the window and straight back rounds each
      coordinate up and clamps it into `[1, dim - 1]`; nothing else is lost. */
  lemma ScaleRoundTrip(pts: seq<Point>, photo: Dims, view: Viewport)
    requires ValidPhoto(photo) && ValidViewport(view)
    ensures PointsScaledBack(ScaledPoints(pts, photo, view), photo, view)
         == seq(|pts|, i requires 0 <= i < |pts| =>
              Pixel(BackCoord(pts[i].x, photo.width), BackCoord(pts[i].y, photo.height)))
  {
  }

  /** Whole pixels at least one pixel inside the photo survive the round trip
      unchanged. */
  lemma ScaleRoundTripIdentity(px: seq<Pixel>, photo: Dims, view: Viewport)
    requires ValidPhoto(photo) && ValidViewport(view)
    requires forall i :: 0 <= i < |px| ==>
               1 <= px[i].x <= photo.width - 1 && 1 <= px[i].y <= photo.height - 1
    ensures PointsScaledBack(ScaledPoints(AsPoints(px), photo, view), photo, view) == px
  {
    var pts := AsPoints(px);
    ScaleRoundTrip(pts, photo, view);
    forall i | 0 <= i < |px|
      ensures BackCoord(pts[i].x, photo.width) == px[i].x
      ensures BackCoord(pts[i].y, photo.height) == px[i].y
    {
      CeilOfWhole(px[i].x);
      CeilOfWhole(px[i].y);
    }
  }

  // ---------------------------------------------------------------------------
  // Reusing the live detection: frame pixels -> photo pixels
  // ---------------------------------------------------------------------------

  /** One coordinate of the live-detection rescale: divide by the
      frame-to-photo ratio, round up, and cap at the photo dimension. There is
      no lower clamp. */
  function LiveCoord(c: real, frameDim: nat, photoDim: nat): (v: int)
    requires frameDim > 0 && photoDim > 0
    ensures v <= photoDim
    ensures var s := c * (photoDim as real) / (frameDim as real);
            && (s <= photoDim as real ==> s <= v as real < s + 1.0)
            && (s > photoDim as real ==> v == photoDim)
  {
    var s := c * (photoDim as real) / (frameDim as real);
    var q := c / (frameDim as real / photoDim as real);
    assert q == s;
    var up := Ceil(q);
    assert s <= photoDim as real ==> up <= photoDim by {
      if s <= photoDim as real {
        CeilIsLeast(q, photoDim);
      }
    }
    var v := MinInt(photoDim, up);
    v
  }

  /** The frame-to-photo rescale of `detectFile`, applied to a copy of the live
      points. */
  function RescaleLive(pts: seq<Point>, frame: Dims, photo: Dims): (r: seq<Point>)
    requires frame.width > 0 && frame.height > 0 && ValidPhoto(photo)
    ensures |r| == |pts|
    ensures forall i :: 0 <= i < |pts| ==>
              r[i] == Point(LiveCoord(pts[i].x, frame.width, photo.width) as real,
                            LiveCoord(pts[i].y, frame.height, photo.height) as real)
    ensures forall i :: 0 <= i < |pts| ==>
              r[i].x <= photo.width as real && r[i].y <= photo.height as real
  {
    seq(|pts|, i requires 0 <= i < |pts| =>
      Point(LiveCoord(pts[i].x, frame.width, photo.width) as real,
            LiveCoord(pts[i].y, frame.height, photo.height) as real))
  }

  /** A point inside the frame is rescaled to a point inside the photo. */
  lemma RescaleLiveStaysInPhoto(pts: seq<Point>, frame: Dims, photo: Dims)
    requires frame.width > 0 && frame.height > 0 && ValidPhoto(photo)
    ensures forall i :: 0 <= i < |pts| && InPhoto(pts[i], frame) ==>
              InPhoto(RescaleLive(pts, frame, photo)[i], photo)
  {
    forall i | 0 <= i < |pts| && InPhoto(pts[i], frame)
      ensures InPhoto(RescaleLive(pts, frame, photo)[i], photo)
    {
      NonNegScale(pts[i].x, photo.width as real, frame.width as real);
      NonNegScale(pts[i].y, photo.height as real, frame.height as real);
    }
  }

  lemma NonNegScale(c: real, p: real, f: real)
    requires c >= 0.0 && p > 0.0 && f > 0.0
    ensures c * p / f >= 0.0
  {
  }

  /** The rescale keeps negative coordinates negative: a point left of the
      frame stays left of the photo. */
  lemma RescaleLiveHasNoLowerClamp()
    ensures RescaleLive([Point(-10.0, 5.0)], Dims(1920, 1080), Dims(3840, 2160))
         == [Point(-20.0, 10.0)]
  {
    var r := RescaleLive([Point(-10.0, 5.0)], Dims(1920, 1080), Dims(3840, 2160));
    assert r[0].x == -20.0 by {
      CeilOfWhole(-20);
    }
    assert r[0].y == 10.0 by {
      CeilOfWhole(10);
    }
  }

  // ---------------------------------------------------------------------------
  // Orientation of the photo against the frame
  // ---------------------------------------------------------------------------

  /** The frame is landscape and the photo portrait, or the other way round. */
  predicate InconsistentOrientation(frame: Dims, photo: Dims) {
    || (frame.width > frame.height && photo.width < photo.height)
    || (frame.width < frame.height && photo.width > photo.height)
  }

  /** The mount effect of the cropper: swap the photo's width and height when
      its orientation disagrees with the frame's. */
  function FixOrientation(frame: Dims, photo: Dims): (p: Dims)
    ensures p == photo || p == Swap(photo)
    ensures p != photo <==> InconsistentOrientation(frame, photo)
    ensures !InconsistentOrientation(frame, p)
  {
    if InconsistentOrientation(frame, photo) then Swap(photo) else photo
  }

  /** Fixing the orientation a second time changes nothing. */
  lemma FixOrientationIdempotent(frame: Dims, photo: Dims)
    ensures FixOrientation(frame, FixOrientation(frame, photo)) == FixOrientation(frame, photo)
  {
  }

  // ---------------------------------------------------------------------------
  // Initial handle positions
  // ---------------------------------------------------------------------------

  /** The handles shown before any detection has finished. */
  const DefaultPoints: seq<Point> :=
    [Point(100.0, 50.0), Point(200.0, 50.0), Point(200.0, 100.0), Point(100.0, 100.0)]

  /** The live detection can be reused when the frame dimensions are known, a
      live boundary exists, and frame and photo have the same aspect ratio. */
  predicate UseLiveDetection(frame: Dims, live: Option<Quad>, photo: Dims)
    requires ValidPhoto(photo)
  {
    && frame.width != 0 && frame.height != 0 && live.Some?
    && (frame.width as real) / (frame.height as real) == (photo.width as real) / (photo.height as real)
  }

  /** `detectFile`: the window positions of the handles after detection. The
      live boundary is rescaled into the photo and shown; otherwise the first
      boundary found in the photo file is shown; otherwise the handles stay
      where they were. A live boundary inside the frame is always shown inside
      the displayed photo. */
  function DetectFile(current: seq<Point>, photo: Dims, view: Viewport, frame: Dims,
                      live: Option<Quad>, fileResults: seq<Quad>): (r: seq<Point>)
    requires ValidPhoto(photo) && ValidViewport(view)
    ensures UseLiveDetection(frame, live, photo) ==>
              r == ScaledPoints(RescaleLive(live.value, frame, photo), photo, view)
    ensures !UseLiveDetection(frame, live, photo) ==>
              r == if |fileResults| > 0 then ScaledPoints(fileResults[0], photo, view) else current
    ensures UseLiveDetection(frame, live, photo) ==>
              |r| == |live.value| &&
              forall i :: 0 <= i < |r| && InPhoto(live.value[i], frame) ==>
                InDisplayedImage(r[i], LayoutOf(photo, view), view)
  {
    if UseLiveDetection(frame, live, photo) then
      var inPhoto := RescaleLive(live.value, frame, photo);
      RescaleLiveStaysInPhoto(live.value, frame, photo);
      ScaledPoints(inPhoto, photo, view)
    else if |fileResults| > 0 then
      ScaledPoints(fileResults[0], photo, view)
    else
      current
  }

  /** The whole mount sequence: fix the photo's orientation against the
      frame, then place the handles, starting from the default ones. */
  function InitialHandles(photo: Dims, view: Viewport, frame: Dims,
                          live: Option<Quad>, fileResults: seq<Quad>): (r: seq<Point>)
    requires ValidPhoto(photo) && ValidViewport(view)
    ensures var p := FixOrientation(frame, photo);
            && ValidPhoto(p)
            && r == DetectFile(DefaultPoints, p, view, frame, live, fileResults)
    ensures !UseLiveDetection(frame, live, FixOrientation(frame, photo)) && |fileResults| == 0 ==>
              r == DefaultPoints
  {
    DetectFile(DefaultPoints, FixOrientation(frame, photo), view, frame, live, fileResults)
  }

  /** `okay`: the handles' window positions go back to photo pixels. The
      mount effect swapped the width and height of the photo object itself,
      so this reads the fixed size, not the size the photo arrived with. */
  function Confirm(photo: Dims, frame: Dims, pts: seq<Point>, view: Viewport): (r: seq<Pixel>)
    requires ValidPhoto(photo) && ValidViewport(view)
    ensures |r| == |pts|
    ensures var p := FixOrientation(frame, photo);
            forall i :: 0 <= i < |pts| ==> r[i].x <= p.width - 1 && r[i].y <= p.height - 1
    ensures InconsistentOrientation(frame, photo) ==>
              forall i :: 0 <= i < |pts| ==> r[i].x <= photo.height - 1 && r[i].y <= photo.width - 1
  {
    PointsScaledBack(pts, FixOrientation(frame, photo), view)
  }

  /** Mount, then confirm without moving a handle: a boundary found in the
      photo file, in whole pixels at least one pixel inside the fixed photo,
      is handed back exactly. This holds because detection and confirmation
      both read the photo after its size was fixed. */
  lemma ConfirmReturnsFileBoundary(photo: Dims, view: Viewport, frame: Dims, live: Option<Quad>,
                                   fileResults: seq<Quad>, px: seq<Pixel>)
    requires ValidPhoto(photo) && ValidViewport(view)
    requires !UseLiveDetection(frame, live, FixOrientation(frame, photo))
    requires |fileResults| > 0 && fileResults[0] == AsPoints(px)
    requires var p := FixOrientation(frame, photo);
             forall i :: 0 <= i < |px| ==>
               1 <= px[i].x <= p.width - 1 && 1 <= px[i].y <= p.height - 1
    ensures Confirm(photo, frame, InitialHandles(photo, view, frame, live, fileResults), view) == px
  {
    ScaleRoundTripIdentity(px, FixOrientation(frame, photo), view);
  }

  /** Two photos in a 1080 x 1920 window: a photo of the same aspect fills
      it; a landscape photo is fitted to the width and letterboxed. */
  lemma DisplayedSizeExamples()
    ensures DisplayedSize(Dims(720, 1280), Viewport(1080.0, 1920.0)) == DisplaySize(1080.0, 1920.0)
    ensures DisplayedSize(Dims(1280, 720), Viewport(1080.0, 1920.0)) == DisplaySize(1080.0, 607.5)
  {
  }
}

=== FILE: geometry.dfy ===
/**
  Shared vocabulary of the document scanner: points, quadrilaterals, pixel
  dimensions, and the exact-arithmetic counterparts of the JavaScript
  `Math` functions the scanner and the cropper use.
 */
module Geometry {

  datatype Option<+T> = None | Some(value: T)

  /** A point in some coordinate space (frame, photo or display); the caller
      tracks which one. */
  datatype Point = Point(x: real, y: real)

  /** A document boundary as the detector reports it: its corner points in
      drawing order. A well-formed boundary has exactly four. */
  type Quad = seq<Point>

  /** A whole photo pixel, as the cropper reports corners back. */
  datatype Pixel = Pixel(x: int, y: int)

  function AsPoint(p: Pixel): Point {
    Point(p.x as real, p.y as real)
  }

  function AsPoints(px: seq<Pixel>): (pts: seq<Point>)
    ensures |pts| == |px|
    ensures forall i :: 0 <= i < |px| ==> pts[i] == AsPoint(px[i])
  {
    seq(|px|, i requires 0 <= i < |px| => AsPoint(px[i]))
  }

  predicate IsQuad(q: Quad) {
    |q| == 4
  }

  /** Pixel dimensions of a camera frame or of a captured photo. */
  datatype Dims = Dims(width: nat, height: nat)

  /** The device window (what React Native's `Dimensions.get('window')`
      reports), in the window's own units. */
  datatype Viewport = Viewport(width: real, height: real)

  /** The same dimensions seen after a quarter turn. */
  function Swap(d: Dims): (s: Dims)
    ensures s.width == d.height && s.height == d.width
  {
    Dims(d.height, d.width)
  }

  /** Swapping twice restores the original dimensions. */
  lemma SwapTwiceIsIdentity(d: Dims)
    ensures Swap(Swap(d)) == d
  {
  }

  /** `Math.abs`. */
  function Abs(r: real): (a: real)
    ensures a >= 0.0
    ensures a == r || a == -r
  {
    if r < 0.0 then -r else r
  }

  /** `Math.min` and `Math.max` on whole numbers. */
  function MinInt(a: int, b: int): (m: int)
    ensures m <= a && m <= b
    ensures m == a || m == b
  {
    if a <= b then a else b
  }

  function MaxInt(a: int, b: int): (m: int)
    ensures m >= a && m >= b
    ensures m == a || m == b
  {
    if a >= b then a else b
  }

  /** `Math.ceil` over exact reals: the least integer that is not below `r`. */
  function Ceil(r: real): (c: int)
    ensures r <= c as real < r + 1.0
  {
    -((-r).Floor)
  }

  /** No smaller integer than `Ceil(r)` lies at or above `r`. */
  lemma CeilIsLeast(r: real, n: int)
    requires r <= n as real
    ensures Ceil(r) <= n
  {
  }

  /** `Math.ceil` leaves whole numbers alone. */
  lemma CeilOfWhole(n: int)
    ensures Ceil(n as real) == n
  {
  }
}

=== FILE: overlay.dfy ===
/**
  The overlay text of the live scanner (`updatePointsData` in
  components/Scanner.tsx): the first detected boundary written as the
  `points` attribute of an SVG polygon, "x,y" pairs separated by single
  spaces. How a number is written as text is the JavaScript runtime's
  business, so it is a parameter here.
 */
module Overlay {
  import opened Geometry

  /** Writes a number as text. */
  type Show = real -> string

  const Separator: char := ' '

  /** One corner as "x,y". */
  function PointText(p: Point, show: Show): string {
    show(p.x) + "," + show(p.y)
  }

  /** The four corners, in index order, with single spaces between them and
      none after the last. */
  function PointsText(q: Quad, show: Show): string
    requires IsQuad(q)
  {
    PointText(q[0], show) + " " + PointText(q[1], show) + " "
      + PointText(q[2], show) + " " + PointText(q[3], show)
  }

  /** `parts` with `sep` between neighbours. */
  function Join(parts: seq<string>, sep: char): string
    requires |parts| > 0
  {
    if |parts| == 1 then parts[0] else parts[0] + [sep] + Join(parts[1..], sep)
  }

  /** The pieces of `s` between occurrences of `sep`. */
  function Split(s: string, sep: char): (parts: seq<string>)
    ensures |parts| > 0
  {
    if |s| == 0 then [""]
    else
      var rest := Split(s[1..], sep);
      if s[0] == sep then [""] + rest
      else [[s[0]] + rest[0]] + rest[1..]
  }

  /** A piece without the separator splits into itself. */
  lemma {:induction false} SplitPlain(s: string, sep: char)
    requires sep !in s
    ensures Split(s, sep) == [s]
  {
    if |s| > 0 {
      assert sep !in s[1..];
      SplitPlain(s[1..], sep);
      assert [s[0]] + s[1..] == s;
    }
  }

  /** Splitting at a separator that follows a separator-free prefix yields
      that prefix, then the pieces of the rest. */
  lemma {:induction false} SplitAfterPrefix(a: string, b: string, sep: char)
    requires sep !in a
    ensures Split(a + [sep] + b, sep) == [a] + Split(b, sep)
  {
    if |a| == 0 {
      assert a + [sep] + b == [sep] + b;
      assert ([sep] + b)[1..] == b;
    } else {
      var s := a + [sep] + b;
      assert s[1..] == a[1..] + [sep] + b;
      assert sep !in a[1..];
      SplitAfterPrefix(a[1..], b, sep);
      assert [a[0]] + a[1..] == a;
    }
  }

  /** Splitting undoes joining when no part holds the separator. */
  lemma {:induction false} SplitJoin(parts: seq<string>, sep: char)
    requires |parts| > 0
    requires forall i :: 0 <= i < |parts| ==> sep !in parts[i]
    ensures Split(Join(parts, sep), sep) == parts
  {
    if |parts| == 1 {
      SplitPlain(parts[0], sep);
    } else {
      SplitJoin(parts[1..], sep);
      SplitAfterPrefix(parts[0], Join(parts[1..], sep), sep);
      assert [parts[0]] + parts[1..] == parts;
    }
  }

  /** The four corner texts in index order. */
  function CornerTexts(q: Quad, show: Show): (t: seq<string>)
    requires IsQuad(q)
    ensures |t| == 4
  {
    [PointText(q[0], show), PointText(q[1], show), PointText(q[2], show), PointText(q[3], show)]
  }

  /** The overlay text is the corner texts joined by single spaces. */
  lemma PointsTextIsJoin(q: Quad, show: Show)
    requires IsQuad(q)
    ensures PointsText(q, show) == Join(CornerTexts(q, show), Separator)
  {
    var t := CornerTexts(q, show);
    var sp := [Separator];
    assert " " == sp;
    assert t[1..][1..][1..] == [t[3]];
    assert Join(t[1..][1..], Separator) == t[2] + sp + t[3];
    assert Join(t[1..], Separator) == t[1] + sp + (t[2] + sp + t[3]);
    assert Join(t, Separator) == t[0] + sp + (t[1] + sp + (t[2] + sp + t[3]));
  }

  /** When numbers are written without spaces, the overlay text splits back
      into exactly the four corner texts, in order: one space between corners,
      none before the first or after the last. */
  lemma PointsTextSplitsIntoCorners(q: Quad, show: Show)
    requires IsQuad(q)
    requires forall r :: Separator !in show(r)
    ensures Split(PointsText(q, show), Separator) == CornerTexts(q, show)
  {
    var t := CornerTexts(q, show);
    forall i | 0 <= i < 4
      ensures Separator !in t[i]
    {
      var p := q[i];
      assert t[i] == show(p.x) + "," + show(p.y);
      assert Separator !in show(p.x) && Separator !in show(p.y);
    }
    PointsTextIsJoin(q, show);
    SplitJoin(t, Separator);
  }

  /** `updatePointsData`: with at least one detection the text becomes the
      first boundary's points; otherwise the previous text is kept. */
  function UpdatePointsData(results: seq<Quad>, current: string, show: Show): (text: string)
    requires |results| > 0 ==> IsQuad(results[0])
    ensures |results| == 0 ==> text == current
    ensures |results| > 0 ==> text == Join(CornerTexts(results[0], show), Separator)
  {
    if |results| > 0 then
      PointsTextIsJoin(results[0], show);
      PointsText(results[0], show)
    else
      current
  }
}

=== FILE: scanner_component.dfy ===
/**
  The live scanner component (components/Scanner.tsx): detections of camera
  frames feed a window of recent boundaries; when three stored boundaries
  agree the component takes a photo, and while a photo is being taken no
  frame is examined.

  This variant appends the new boundary first and then tests the window
  (`checkIfSteady`). The window is never cleared after a capture.
 */
module ScannerComponent {
  import opened Geometry
  import opened Steadiness

  /** `checkIfSteady` over the current detection results. With no result the
      window is left alone. With fewer than two stored boundaries the first
      result is appended. Otherwise it is appended and the window tested: a
      steady window triggers a capture and is kept whole, an unsteady one
      drops its oldest entry. */
  function CheckIfSteady(window: seq<Quad>, results: seq<Quad>, iou: IoU): (s: Step)
    ensures |results| == 0 ==> s == Step(window, false)
    ensures |results| > 0 && |window| < 2 ==> s == Step(window + [results[0]], false)
    ensures s.capture <==> |results| > 0 && |window| >= 2 && Steady(window + [results[0]], iou)
    ensures s.capture ==> s.window == window + [results[0]]
    ensures |results| > 0 && |window| >= 2 && !s.capture ==> s.window == window[1..] + [results[0]]
    ensures |window| <= 2 && !s.capture ==> |s.window| <= 2
    ensures |window| == 2 && s.capture ==> |s.window| == 3 && AllPairsAgree(s.window, iou)
  {
    if |results| == 0 then
      Step(window, false)
    else
      var result := results[0];
      if |window| >= 2 then
        var pushed := window + [result];
        if Steady(pushed, iou) then
          SteadyIffLeadingTrioAgrees(pushed, iou);
          assert |window| == 2 ==> pushed[..3] == pushed;
          Step(pushed, true)
        else
          Step(pushed[1..], false)
      else
        Step(window + [result], false)
  }

  /** A photo as the camera returns it. */
  datatype Photo = Photo(path: string, width: nat, height: nat)

  /** The component's state: the window of stored boundaries, the latest
      detection results and their frame size, the `taken` flag, whether the
      camera is active, and the photo handed to `onScanned`, if any. */
  datatype Session = Session(window: seq<Quad>, results: seq<Quad>, frame: Dims,
                             taken: bool, active: bool, scanned: Option<Photo>)

  /** The state when the component mounts. */
  const Initial: Session := Session([], [], Dims(1920, 1080), false, true, None)

  /** One camera frame with the boundaries the detector found in it. The
      detector is external, so its results are an input; `cameraReady` says
      whether the camera reference is set. Frames are skipped while `taken`
      holds; a frame with no detection changes nothing; otherwise the results
      and frame size are recorded and `checkIfSteady` runs, and a capture sets
      `taken` before the photo is requested. */
  function OnFrame(s: Session, detected: seq<Quad>, frame: Dims, cameraReady: bool, iou: IoU): (t: Session)
    ensures s.taken ==> t == s
    ensures !s.taken && |detected| == 0 ==> t == s
    ensures !s.taken && |detected| > 0 ==>
              && t.results == detected && t.frame == frame
              && t.window == CheckIfSteady(s.window, detected, iou).window
    ensures t.taken <==> s.taken || (cameraReady && CheckIfSteady(s.window, detected, iou).capture)
    ensures !s.taken && t.taken ==> Steady(t.window, iou)
    ensures t.active == s.active && t.scanned == s.scanned
  {
    if s.taken || |detected| == 0 then
      s
    else
      var step := CheckIfSteady(s.window, detected, iou);
      s.(window := step.window, results := detected, frame := frame,
         taken := cameraReady && step.capture)
  }

  /** The end of `takePhoto`: with a photo the camera is stopped and the photo
      handed on; without one `taken` is cleared so that detection resumes. The
      window is left as it was in both cases. */
  function OnPhoto(s: Session, photo: Option<Photo>): (t: Session)
    requires s.taken
    ensures t.window == s.window && t.results == s.results && t.frame == s.frame
    ensures t.taken <==> photo.Some?
    ensures photo.Some? ==> !t.active && t.scanned == photo
    ensures photo.None? ==> t.active == s.active && t.scanned == s.scanned
  {
    match photo
    case Some(p) => s.(active := false, scanned := Some(p))
    case None => s.(taken := false)
  }

  /** What reaches the component: a camera frame with the boundaries the
      detector found in it and whether the camera reference is set, or the
      outcome of the photo request a capture made. */
  datatype Event =
    | Frame(detected: seq<Quad>, frame: Dims, cameraReady: bool)
    | PhotoTaken(photo: Option<Photo>)

  /** One event. A photo outcome only comes back while a capture is in
      flight; with none in flight there is nothing to deliver. */
  function Apply(s: Session, e: Event, iou: IoU): Session {
    match e
    case Frame(detected, frame, ready) => OnFrame(s, detected, frame, ready, iou)
    case PhotoTaken(photo) => if s.taken then OnPhoto(s, photo) else s
  }

  /** Apply events in order. */
  function Run(s: Session, events: seq<Event>, iou: IoU): Session
    decreases |events|
  {
    if |events| == 0 then s else Run(Apply(s, events[0], iou), events[1..], iou)
  }

  /** Until three agreeing boundaries have been stored the window holds at
      most two; from then on it only grows, and its oldest three agree. A
      capture is only in flight in the second case. */
  predicate WindowInvariant(s: Session, iou: IoU) {
    if s.taken then Steady(s.window, iou) else |s.window| <= 2 || Steady(s.window, iou)
  }

  lemma InitialSatisfiesInvariant(iou: IoU)
    ensures WindowInvariant(Initial, iou)
  {
  }

  /** A frame keeps the invariant whether or not the camera is ready. Once
      the oldest three agree, every further detection is appended and
      captures again, because `steady` never looks past the oldest three. */
  lemma OnFrameKeepsInvariant(s: Session, detected: seq<Quad>, frame: Dims, cameraReady: bool, iou: IoU)
    requires WindowInvariant(s, iou)
    ensures WindowInvariant(OnFrame(s, detected, frame, cameraReady, iou), iou)
    ensures !s.taken && Steady(s.window, iou) && |detected| > 0 ==>
              && OnFrame(s, detected, frame, cameraReady, iou).window == s.window + [detected[0]]
              && (OnFrame(s, detected, frame, cameraReady, iou).taken <==> cameraReady)
  {
    if !s.taken && |detected| > 0 && |s.window| >= 3 {
      SteadyIgnoresLaterEntries(s.window, [detected[0]], iou);
    }
  }

  /** The outcome of a capture keeps the invariant: the window is untouched. */
  lemma OnPhotoKeepsInvariant(s: Session, photo: Option<Photo>, iou: IoU)
    requires s.taken && WindowInvariant(s, iou)
    ensures WindowInvariant(OnPhoto(s, photo), iou)
  {
  }

  /** Any sequence of frames and photo outcomes keeps the invariant. */
  lemma {:induction false} RunKeepsInvariant(s: Session, events: seq<Event>, iou: IoU)
    requires WindowInvariant(s, iou)
    ensures WindowInvariant(Run(s, events, iou), iou)
    decreases |events|
  {
    if |events| > 0 {
      match events[0] {
        case Frame(detected, frame, ready) =>
          OnFrameKeepsInvariant(s, detected, frame, ready, iou);
        case PhotoTaken(photo) =>
          if s.taken {
            OnPhotoKeepsInvariant(s, photo, iou);
          }
      }
      RunKeepsInvariant(Apply(s, events[0], iou), events[1..], iou);
    }
  }

  /** While a capture is in flight, no number of frames changes anything. In
      the model, where a frame's `taken` test and the delivery of its results
      are one step, a second capture is never requested before the first one
      comes back. */
  lemma {:induction false} FramesIgnoredWhileTaken(s: Session, events: seq<Event>, iou: IoU)
    requires s.taken
    requires forall i :: 0 <= i < |events| ==> events[i].Frame?
    ensures Run(s, events, iou) == s
    decreases |events|
  {
    if |events| > 0 {
      FramesIgnoredWhileTaken(s, events[1..], iou);
    }
  }

  /** The window is not cleared after a capture. If the camera then returns
      no photo, the next detection that reaches `checkIfSteady` appends its
      boundary and triggers another capture, because the test still sees the three
      stored boundaries that agreed, whatever the new boundary is. */
  lemma FailedCaptureRecapturesOnNextDetection(s: Session, detected: seq<Quad>, frame: Dims, iou: IoU)
    requires s.taken && Steady(s.window, iou)
    requires |detected| > 0
    ensures OnFrame(OnPhoto(s, None), detected, frame, true, iou).taken
    ensures OnFrame(OnPhoto(s, None), detected, frame, true, iou).window == s.window + [detected[0]]
  {
    SteadyIgnoresLaterEntries(s.window, [detected[0]], iou);
  }

  /** Rounds of a capture that returns no photo followed by a frame that
      detects the next boundary of `boundaries`. */
  function FailedRounds(boundaries: seq<Quad>, frame: Dims): (events: seq<Event>)
    ensures |events| == 2 * |boundaries|
    decreases |boundaries|
  {
    if |boundaries| == 0 then []
    else [PhotoTaken(None), Frame([boundaries[0]], frame, true)] + FailedRounds(boundaries[1..], frame)
  }

  /** Each failed capture adds one boundary to the window for good: the
      window grows without bound while the camera keeps failing, and a
      capture is in flight again after every round. */
  lemma {:induction false} FailedCapturesGrowWindow(s: Session, boundaries: seq<Quad>, frame: Dims, iou: IoU)
    requires s.taken && Steady(s.window, iou)
    ensures Run(s, FailedRounds(boundaries, frame), iou).taken
    ensures Run(s, FailedRounds(boundaries, frame), iou).window == s.window + boundaries
    decreases |boundaries|
  {
    if |boundaries| > 0 {
      var b := boundaries[0];
      var rest := FailedRounds(boundaries[1..], frame);
      var events := FailedRounds(boundaries, frame);
      assert events[0] == PhotoTaken(None) && events[1..][0] == Frame([b], frame, true);
      assert events[1..][1..] == rest;
      var next := OnFrame(OnPhoto(s, None), [b], frame, true, iou);
      FailedCaptureRecapturesOnNextDetection(s, [b], frame, iou);
      SteadyIgnoresLaterEntries(s.window, [b], iou);
      assert Run(s, events, iou) == Run(next, rest, iou);
      FailedCapturesGrowWindow(next, boundaries[1..], frame, iou);
      assert s.window + [b] + boundaries[1..] == s.window + boundaries;
    }
  }
}

=== FILE: scanner_screen.dfy ===
/**
  The scanner screen (screens/Scanner.tsx): the older scanner. Its window
  holds up to three boundaries; the stored three are tested before the
  current boundary is added, and an unsteady window slides. After a capture
  the photo is run through file detection and shown for confirmation, and
  `retake` starts over.
 */
module ScannerScreen {
  import opened Geometry
  import opened Steadiness

  /** The current boundary: the first detection result, if any. */
  function Current(results: seq<Quad>): (c: Option<Quad>)
    ensures c.Some? <==> |results| > 0
    ensures c.Some? ==> c.value == results[0]
  {
    if |results| > 0 then Some(results[0]) else None
  }

  /** `checkIfSteady`. With no current boundary the window is left alone.
      With fewer than three stored boundaries the current one is appended.
      Otherwise the stored window is tested without the current boundary: if
      steady, a capture is triggered and the window kept; if not, the oldest
      entry is dropped and the current boundary appended, so the length stays
      the same. */
  function CheckIfSteady(window: seq<Quad>, results: seq<Quad>, iou: IoU): (s: Step)
    ensures Current(results).None? ==> s == Step(window, false)
    ensures s.capture <==> Current(results).Some? && |window| >= 3 && Steady(window, iou)
    ensures s.capture ==> s.window == window
    ensures Current(results).Some? && |window| < 3 ==> s.window == window + [results[0]]
    ensures Current(results).Some? && |window| >= 3 && !s.capture ==>
              s.window == window[1..] + [results[0]] && |s.window| == |window|
    ensures |window| <= 3 ==> |s.window| <= 3
  {
    match Current(results)
    case None => Step(window, false)
    case Some(result) =>
      if |window| >= 3 then
        if Steady(window, iou) then Step(window, true)
        else Step(window[1..] + [result], false)
      else
        Step(window + [result], false)
  }

  /** Whether a capture is triggered depends on the stored window alone, not
      on which boundary the current frame brought. */
  lemma CaptureIgnoresCurrentBoundary(window: seq<Quad>, a: Quad, b: Quad, iou: IoU)
    ensures CheckIfSteady(window, [a], iou).capture == CheckIfSteady(window, [b], iou).capture
  {
  }

  // ---------------------------------------------------------------------------
  // View box of the overlay
  // ---------------------------------------------------------------------------

  datatype Platform = Android | OtherPlatform

  /** On Android the frame arrives in sensor orientation; the overlay's
      coordinate box is turned when the screen is landscape and the frame
      portrait, or the screen is not landscape and the frame is landscape. */
  predicate ViewBoxRotated(platform: Platform, screen: Viewport, frame: Dims) {
    && platform == Android
    && if screen.width > screen.height then frame.width < frame.height
       else frame.width > frame.height
  }

  /** The width and height of the overlay's `viewBox` ("0 0 width height").
      It is the frame size, turned when needed so that on Android a
      non-square frame gets the screen's orientation; elsewhere it is the
      frame size as is. */
  function ViewBox(platform: Platform, screen: Viewport, frame: Dims): (v: Dims)
    ensures v == frame || v == Swap(frame)
    ensures v != frame ==> platform == Android
    ensures platform == Android && frame.width != frame.height ==>
              (v.width > v.height <==> screen.width > screen.height)
    ensures platform == OtherPlatform ==> v == frame
  {
    if ViewBoxRotated(platform, screen, frame) then Swap(frame) else frame
  }

  // ---------------------------------------------------------------------------
  // Capture, retake and confirmation
  // ---------------------------------------------------------------------------

  /** A photo as the camera returns it, with its metadata orientation tag. */
  datatype Photo = Photo(path: string, width: nat, height: nat, orientation: int)

  /** The tag value for a photo stored a quarter turn from upright. */
  const RotatedQuarterTurn: int := 6

  /** The size recorded as frame size after a capture: on Android a photo
      tagged as turned a quarter has its file rotated, so its width and height
      trade places. */
  function CapturedFrameDims(platform: Platform, photo: Photo): (d: Dims)
    ensures d == Dims(photo.width, photo.height) || d == Swap(Dims(photo.width, photo.height))
    ensures platform == Android && photo.orientation == RotatedQuarterTurn ==>
              d.width == photo.height && d.height == photo.width
    ensures !(platform == Android && photo.orientation == RotatedQuarterTurn) ==>
              d == Dims(photo.width, photo.height)
  {
    if platform == Android && photo.orientation == RotatedQuarterTurn then
      Dims(photo.height, photo.width)
    else
      Dims(photo.width, photo.height)
  }

  /** The screen's state: window, detection results, frame size, the `taken`
      flag, whether the camera is active, and the path of the captured photo. */
  datatype ScreenState = ScreenState(window: seq<Quad>, results: seq<Quad>, frame: Dims,
                                     taken: bool, active: bool, photoPath: Option<string>)

  const Initial: ScreenState := ScreenState([], [], Dims(0, 0), false, true, None)

  /** The frame processor: while `taken` is clear, the frame's detection
      results (possibly none) and its size replace the previous ones. */
  function OnFrame(s: ScreenState, detected: seq<Quad>, frame: Dims): (t: ScreenState)
    ensures s.taken ==> t == s
    ensures !s.taken ==> t == s.(results := detected, frame := frame)
  {
    if s.taken then s else s.(results := detected, frame := frame)
  }

  /** The start of `takePhoto`: with the camera ready, `taken` is set before
      the photo is requested, so frames arriving meanwhile are ignored. */
  function BeginCapture(s: ScreenState, cameraReady: bool): (t: ScreenState)
    ensures t.taken <==> s.taken || cameraReady
    ensures t.window == s.window && t.results == s.results && t.frame == s.frame
    ensures t.active == s.active && t.photoPath == s.photoPath
  {
    if cameraReady then s.(taken := true) else s
  }

  /** The rest of `takePhoto`: the camera stops, the photo's size (turned on
      Android for a quarter-turn tag) becomes the frame size, the detector's
      results on the photo file replace the live ones, and the photo path is
      kept. The window is left as it was. */
  function FinishCapture(s: ScreenState, platform: Platform, photo: Photo,
                         fileResults: seq<Quad>): (t: ScreenState)
    requires s.taken
    ensures t.taken && !t.active
    ensures t.frame == CapturedFrameDims(platform, photo)
    ensures t.results == fileResults && t.photoPath == Some(photo.path)
    ensures t.window == s.window
  {
    s.(active := false, frame := CapturedFrameDims(platform, photo),
       results := fileResults, photoPath := Some(photo.path))
  }

  /** The capture is requested a second time. `checkIfSteady` does not look
      at `taken`, and the capture keeps the stored window. Storing the file
      results changes the overlay text whenever their text differs from the
      last live text, and that change runs `checkIfSteady` again. The stored
      three still agree, and the file result is a current boundary, so a
      second capture is requested. */
  lemma FileResultsRetriggerCapture(s: ScreenState, platform: Platform, photo: Photo,
                                    fileResults: seq<Quad>, iou: IoU)
    requires !s.taken && CheckIfSteady(s.window, s.results, iou).capture
    requires |fileResults| > 0
    ensures var t := FinishCapture(BeginCapture(s, true), platform, photo, fileResults);
            && t.taken && t.window == s.window
            && CheckIfSteady(t.window, t.results, iou) == Step(s.window, true)
  {
  }

  /** `retake`: forget the window, the results and the photo, clear `taken`
      and restart the camera. The frame size is kept. */
  function Retake(s: ScreenState): (t: ScreenState)
    ensures t.window == [] && t.results == [] && t.photoPath == None
    ensures !t.taken && t.active
    ensures t.frame == s.frame
  {
    s.(window := [], results := [], photoPath := None, taken := false, active := true)
  }

  /** After a retake the scanner starts over: whatever state it was in, the
      next boundary is simply stored, no capture can follow before three new
      boundaries are stored, and frames are examined again. */
  lemma RetakeStartsOver(s: ScreenState, detected: seq<Quad>, frame: Dims, iou: IoU)
    requires |detected| > 0
    ensures var t := OnFrame(Retake(s), detected, frame);
            && t.results == detected
            && CheckIfSteady(t.window, t.results, iou) == Step([detected[0]], false)
    ensures Retake(Retake(s)) == Retake(s)
  {
  }

  /** What `okay` does. */
  datatype OkayAction =
    | ShowError(title: string, message: string)
    | Navigate(photoPath: Option<string>, result: Quad)

  /** `okay`: with no detection results an error is shown and the screen
      stays; otherwise the result viewer opens with the photo path and the
      first result. */
  function Okay(s: ScreenState): (a: OkayAction)
    ensures a.ShowError? <==> |s.results| == 0
    ensures a.ShowError? ==> a == ShowError("Error", "No detected documents")
    ensures a.Navigate? ==> a.photoPath == s.photoPath && a.result == s.results[0]
  {
    if |s.results| == 0 then ShowError("Error", "No detected documents")
    else Navigate(s.photoPath, s.results[0])
  }

  /** What `okay` hands on at the end of a capture: the captured photo's path
      with the first boundary found in the photo file, or the error when the
      file yielded none. After a retake there is nothing to hand on. */
  lemma OkayAfterCapture(s: ScreenState, platform: Platform, photo: Photo, fileResults: seq<Quad>)
    requires s.taken
    ensures |fileResults| > 0 ==>
              Okay(FinishCapture(s, platform, photo, fileResults)) == Navigate(Some(photo.path), fileResults[0])
    ensures |fileResults| == 0 ==>
              Okay(FinishCapture(s, platform, photo, fileResults)) == ShowError("Error", "No detected documents")
    ensures Okay(Retake(s)).ShowError?
  {
  }

  /** Feed detection results to `checkIfSteady` one after another until a
      capture is triggered. Each entry stands for a frame whose overlay text
      differed from the one before; frames with the same text never reach
      `checkIfSteady`. */
  function RunDetections(window: seq<Quad>, events: seq<seq<Quad>>, iou: IoU): (s: Step)
    decreases |events|
  {
    if |events| == 0 then Step(window, false)
    else
      var step := CheckIfSteady(window, events[0], iou);
      if step.capture then step else RunDetections(step.window, events[1..], iou)
  }

  /** The window never grows beyond three boundaries, and a capture is only
      ever triggered by a steady window. */
  lemma {:induction false} RunDetectionsKeepsWindowBounded(window: seq<Quad>, events: seq<seq<Quad>>, iou: IoU)
    requires |window| <= 3
    ensures |RunDetections(window, events, iou).window| <= 3
    ensures RunDetections(window, events, iou).capture ==> Steady(RunDetections(window, events, iou).window, iou)
    decreases |events|
  {
    if |events| > 0 {
      var step := CheckIfSteady(window, events[0], iou);
      if !step.capture {
        RunDetectionsKeepsWindowBounded(step.window, events[1..], iou);
      }
    }
  }
}

=== FILE: scanner_variants.dfy ===
/**
  How the two scanners' windows relate. The component appends and then
  tests; the screen tests the stored window and then slides. Holding one
  more boundary, the screen reaches each decision one frame later than the
  component.
 */
module ScannerVariants {
  import opened Geometry
  import opened Steadiness
  import ScannerComponent
  import ScannerScreen

  /** Let the component hold two boundaries and receive `c`, and the screen
      hold the same two followed by `c` and receive any `d`. Both decide the
      same way about capturing, and when neither captures the screen again
      holds the component's window followed by its own latest boundary, so
      the correspondence carries on to the next frame. */
  lemma ScreenLagsComponentByOneFrame(w: seq<Quad>, c: Quad, d: Quad, iou: IoU)
    requires |w| == 2
    ensures var a := ScannerComponent.CheckIfSteady(w, [c], iou);
            var b := ScannerScreen.CheckIfSteady(w + [c], [d], iou);
            && b.capture == a.capture
            && (!a.capture ==> |a.window| == 2 && b.window == a.window + [d])
  {
  }
}

=== FILE: steadiness.dfy ===
/**
  The steadiness test shared by both scanners (`steady` in
  components/Scanner.tsx and in screens/Scanner.tsx, which are identical).

  The similarity of two boundaries is an intersection-over-union supplied by
  a helper module that is not part of this model, so it is a parameter here.
  Nothing is assumed of it: not symmetry, not that a boundary matches itself.
 */
module Steadiness {
  import opened Geometry

  /** Intersection-over-union of two boundaries. */
  type IoU = (Quad, Quad) -> real

  /** The window after one observation, and whether to take a photo. */
  datatype Step = Step(window: seq<Quad>, capture: bool)

  /** Two boundaries agree when their IoU is strictly above this. */
  const Threshold: real := 0.9

  /** The window's first three entries exist and every pair of them agrees:
      (0, 1), (1, 2) and (0, 2), each with the older entry first. */
  predicate Steady(window: seq<Quad>, iou: IoU) {
    && |window| >= 3
    && iou(window[0], window[1]) > Threshold
    && iou(window[1], window[2]) > Threshold
    && iou(window[0], window[2]) > Threshold
  }

  /** Every earlier entry agrees with every later one. */
  predicate AllPairsAgree(trio: seq<Quad>, iou: IoU) {
    forall i, j :: 0 <= i < j < |trio| ==> iou(trio[i], trio[j]) > Threshold
  }

  /** `Steady` is exactly "the oldest three entries all agree pairwise": no
      pair is skipped, so a slow drift whose neighbours agree but whose ends
      do not is rejected. */
  lemma SteadyIffLeadingTrioAgrees(window: seq<Quad>, iou: IoU)
    ensures Steady(window, iou) <==> |window| >= 3 && AllPairsAgree(window[..3], iou)
  {
    if |window| >= 3 && AllPairsAgree(window[..3], iou) {
      var t := window[..3];
      assert iou(t[0], t[1]) > Threshold;
      assert iou(t[1], t[2]) > Threshold;
      assert iou(t[0], t[2]) > Threshold;
    }
  }

  /** Only the three oldest entries are looked at. */
  lemma SteadyIgnoresLaterEntries(window: seq<Quad>, extra: seq<Quad>, iou: IoU)
    requires |window| >= 3
    ensures Steady(window + extra, iou) == Steady(window, iou)
  {
    assert (window + extra)[..3] == window[..3];
  }

  /** A slow drift: consecutive entries agree, the ends do not, so the window
      is not steady. */
  lemma DriftIsNotSteady(a: Quad, b: Quad, c: Quad, iou: IoU)
    requires iou(a, b) > Threshold && iou(b, c) > Threshold && iou(a, c) <= Threshold
    ensures !Steady([a, b, c], iou)
  {
  }
}
